=== FILE: README.md ===
# skroutz.js client core, modelled in Dafny

`index.js` is a small client for the Skroutz REST API. A client object is a
JavaScript Proxy. Any property read on it that is not one of the reserved
names `fetch`, `params`, `cacheETag` or `cacheModified` returns a closure. That
closure records a path segment `{property, args}`, so a chain such as
`client.Category(40).skus().params({q: "x"}).fetch()` spells out a request.

On `fetch` the client does the following:
- It copies references to the pending segments, parameters and cache validators, and resets them.
- It waits for the token from the one OAuth2 client-credentials exchange started when the client was created.
- It builds one GET: the resource prefix comes from the first segment's name, the later segments are concatenated after it, and the query string and headers are added.
- It classifies the reply by status code.

The project models that deterministic core as immutable values and pure functions:

- `js.dfy` (`Js`): the JavaScript values the client handles (`undefined`, `null`,
  booleans, safe integer numbers, strings, plain objects), truthiness, and the
  string a value becomes when concatenated (safe integers in plain decimal,
  proved to read back).
- `errors.dfy` (`Errors`): every error the client reports. Each error it
  builds itself has its exact message. The result type is `Result<T>`.
- `builder.dfy` (`Builder`): the proxy's pending state and each property
  access as an operation returning a new state or a usage error. `Run` folds a
  sequence of accesses and collects the plans `fetch` submits.
- `request.dfy` (`Request`): the eight-entry resource registry, the path
  concatenation (a loop with invariants, against a recursive definition), the
  query string, the headers and the whole request.
- `response.dfy` (`Response`): the resource reply's status and body
  classification, the `cache` object, and the token exchange's credential check
  and reply classification.
- `client.dfy` (`Client`): a client session. It holds one token outcome reused by every
  fetch. It also proves end-to-end lemmas tying the builder to the request.

The network is a parameter: `server: Get -> Reply` answers the resource GET and
`authServer: Credentials -> TokenReply` answers the token request. Serialising
the parameter object (`querystring.stringify`) is the parameter
`stringify: JsValue -> string`. `JSON.parse` is represented by its outcome
(`Parsed`), which the reply carries.

Where the code and its description differ, the model follows the code:
- A resource called without an argument leaves the bare prefix with no trailing
  slash. The next name is appended directly (`/productssku/42/`), and the query
  string replaces the prefix's last letter (see Findings).
- The `cacheModified` guard only looks at `cacheModified`, so an ETag followed by
  a Last-Modified value is accepted and the ETag wins in the headers.
- The guards test `=== undefined`, while request construction tests truthiness.
  So `params(null)` blocks a second `params` call but adds no query string, and
  `cacheETag("")` sends no `If-None-Match`.
- The credentials check only asks that both keys be own properties. Their values
  are not checked for being non-empty. `null` as the authentication object throws
  a `TypeError` instead of the "Wrong or missing authentication object" error.
- A 200 reply to the token request whose body is not valid JSON passes on
  `JSON.parse`'s `SyntaxError`, not "Unexpected DATA from SKROUTZ API". A body
  of `null` throws a `TypeError` at `hasOwnProperty`. Only other JSON values
  without `access_token` give "Unexpected DATA".
- `fetch` does not take a private copy of the request's data. It keeps
  references, and the parameter object is only serialised once the token has
  settled (index.js:37-47, 144). A caller who changes that object after `fetch`
  changes the query string of a request already submitted (see Left out).
- An authentication object or a token reply body with an own `hasOwnProperty`
  key throws a `TypeError` at index.js:216 or 253, because that key shadows the
  method. The model gives this the kind `CallOfNonFunction`.
- The status code 404 is listed twice in the resource reply's first test. The
  model treats it as one case.

## Model

| member | source | states |
|---|---|---|
| Builder.AppendSegment | index.js:103-111 | a segment access adds exactly one `{property, args}` at the end of the plan and leaves params and both validators unchanged |
| Builder.SetParams | index.js:73-82 | `params` fails with "multiple params()" exactly when a defined parameter value is already stored; otherwise it stores the argument and nothing else changes |
| Builder.SetCacheETag | index.js:83-92 | `cacheETag` fails exactly when either validator is already stored; otherwise it stores the ETag only |
| Builder.SetCacheModified | index.js:93-102 | `cacheModified` fails exactly when a Last-Modified value is already stored, whatever the ETag; otherwise it stores that value only |
| Builder.SetCacheModifiedIntended | index.js:93-102 | the corrected guard: `cacheModified` fails exactly when either validator is stored |
| Builder.Snapshot | index.js:37-40 | the plan `fetch` submits carries the four pending values unchanged |
| Builder.Access | index.js:34-111 | `fetch` submits the snapshot and resets the builder to empty; any non-reserved name appends a segment; `params`, `cacheETag` and `cacheModified` each succeed or fail exactly as their setter does, continuing from the setter's state or throwing its error; nothing else can fail |
| Builder.RunSubmitsOnePlanPerFetch | index.js:34-111 | a chain that completes submits one plan per `fetch` access; a chain that fails contains a `params` or validator access and fails with "multiple params()" or the validator conflict |
| Builder.RunIsRunUntilThrow | index.js:34-111 | a sequence of accesses interrupted by the first throw completes exactly when nothing is thrown, with the same plans and pending state as the throw-free run, and otherwise throws that run's error |
| Builder.ThrowKeepsEarlierWork | index.js:73-102 | a usage error thrown after a completed run keeps every plan that run submitted, leaves the state it ended in pending (the throw resets nothing), and stops the sequence |
| Builder.ThrowAfterFetchKeepsPlanAndParams | index.js:73-82 | `Category(1).fetch()` then `params("a").params("b")`: the second `params` throws, the Category plan stays submitted, and `"a"` stays pending |
| Builder.RunConcat | index.js:34-111 | running two chains of accesses one after the other is the same as running their concatenation |
| Builder.SegmentCallsRecordInOrder | index.js:104-110 | segment accesses never fail, submit nothing, and append their segments in call order |
| Builder.FetchStartsFresh | index.js:37-44 | after `fetch`, everything that follows behaves as on a new builder, whatever was accessed before |
| Builder.ChainThenFetch | index.js:37-44 | a chain of segments followed by `fetch` submits exactly those segments with no params or validators and leaves the builder empty |
| Builder.ChainWithBothValidatorsThenFetch | index.js:83-102 | segments, then `cacheETag(v)` with `v` defined, then `cacheModified(w)`, then `fetch` submit exactly those segments with both validators stored and leave the builder empty |
| Builder.SecondParamsFails | index.js:74-82 | once a defined params value is stored, a later `params` before the next `fetch` always ends the chain in an error |
| Builder.ParamsTwice | index.js:73-82 | `params(p)`, any segments, then `params(q)` fails with "multiple params()" |
| Builder.ETagThenModifiedAccepted | index.js:93-98 | ETag then Last-Modified is accepted and both values are stored |
| Builder.ModifiedThenETagRefused | index.js:84-91 | Last-Modified then ETag is refused with the validator-conflict error |
| Builder.IntendedSettersKeepOneValidator | index.js:84 | with the corrected guard, the two setters never leave both validators stored |
| Builder.WrittenSetterStoresBothValidators | index.js:94 | with the guard as written, a state holding an ETag accepts a Last-Modified value and then holds both |
| Request.ResourceUri | index.js:116-130 | a name has a prefix exactly when it is one of the eight registry keys, and every prefix starts with `/` |
| Request.BuildPath | index.js:131-142 | the loop builds the first segment's part (the bare prefix, or prefix `/arg/`), then each later segment's `name/` and, when defined, `arg/`, in call order |
| Request.Head | index.js:132-136 | the first part of the path begins with the resource prefix; it is the bare prefix exactly when the first segment has no argument, and otherwise continues with `/` and ends in `/` |
| Request.Components | index.js:137-142 | the later segments' part is empty exactly when there are no later segments, and otherwise ends in `/` |
| Request.PathOf | index.js:131-142 | every path begins with the resource prefix; it is the bare prefix exactly when the resource is the only segment and has no argument, and otherwise ends in `/` |
| Request.BarePrefixJoinsNextName | index.js:132-142 | `Product()` then `sku(42)` gives `/productssku/42/`, with no slash between the names |
| Request.DropLast | index.js:144 | `slice(0, length - 1)` removes exactly the last character, and leaves `""` as `""` |
| Request.WithQuery | index.js:143-145 | a falsy params value leaves the path unchanged; a truthy one replaces the last character by `?` followed by the query string |
| Request.Headers | index.js:146-154 | Accept and Bearer authorization are always present; If-None-Match is present exactly when the ETag is truthy; If-Modified-Since is present exactly when the ETag is falsy and Last-Modified is truthy; never both |
| Request.BuildRequest | index.js:128-154 | a request is built exactly when the first segment names a registry resource; otherwise "undefined resource" with that name, or the empty-plan error; its path and headers are the ones above |
| Request.BarePrefixLosesLastLetter | index.js:132-145 | as written, `Search()` with params requests `/searc?…`, whose start is not `/search` |
| Request.IntendedQueryRemovesOnlySlash | index.js:132-145 | with the corrected separator every path ends in `/`, so adding the query string removes only that slash and keeps the resource prefix |
| Response.StatusError | index.js:160-180 | 404, 400, 401, 500, 501 and 403 each map to their own fixed error; every code outside the eight known ones maps to "unexpected HTTP response" carrying the code |
| Response.CacheInfo | index.js:194-200 | the `cache` object holds exactly the `etag` and `last-modified` headers that are present, with their values |
| Response.ResourceResult | index.js:160-205 | 304 gives exactly `{cached: true}`; other non-200 codes give their error; a 200 object body gains a `cache` field and keeps its other fields; a 200 body that is not valid JSON gives a syntax error; a 200 body that is null or a primitive gives a type error |
| Response.OnlyOkReadsBody | index.js:160-186 | any two replies with the same non-200 status give the same result, whatever their bodies and headers |
| Response.ETagSurfacesInCache | index.js:195-197 | a 200 reply with an `etag` header resolves to a value whose `cache.etag` is that header |
| Response.CheckCredentials | index.js:216 | the exchange proceeds exactly when the authentication object has both `client_id` and `client_secret` as own properties; `undefined` and every other value give the wrong-authentication error, except `null` and an object with its own `hasOwnProperty` key, which give type errors |
| Response.TokenResult | index.js:238-262 | 401 gives "invalid client credentials"; any other non-200 code gives "unexpected HTTP response"; a 200 reply yields `access_token` exactly when the body is an object holding it and no own `hasOwnProperty` key; a 200 body that is not valid JSON gives the syntax error, a `null` body or one with its own `hasOwnProperty` key a type error, and any other body "Unexpected DATA" |
| Response.OnlyOkReadsTokenBody | index.js:238-244 | any two token replies with the same non-200 status give the same result, whatever their bodies |
| Response.IssuedTokenIsReturned | index.js:250-255 | a 200 token reply yields exactly the `access_token` value the endpoint put in its object, whatever else the object holds, while the same body under 401 yields no token |
| Response.Authorize | index.js:215-273 | a failed credential check is the result; otherwise the result is the classification of the token endpoint's reply |
| Response.MissingKeyMakesNoRequest | index.js:216-272 | credentials lacking a key, or shadowing `hasOwnProperty`, fail, with the same outcome whatever the token endpoint would answer |
| Client.Deliver | index.js:45-71 | a failed token exchange is passed on as is; otherwise a request error is passed on as is, or the reply to the built request is classified |
| Client.FetchIsOneAccessSession | index.js:35-72 | a single `fetch` on a client is the one-access chain: it delivers the snapshot with the client's token, leaves the builder empty and keeps the token |
| Client.DeliverAll | index.js:45-71 | the outcomes of submitted plans are, position by position, each plan delivered with the one token |
| Client.RunSession | index.js:28-72 | a chain on a client fails exactly when its accesses throw, with that error; otherwise it yields one outcome per submitted plan, each delivered with the client's token, and the client keeps its token and the pending state the chain left |
| Client.RunSessionUntilThrow | index.js:28-111 | a chain interrupted by a thrown usage error yields, position by position, the outcomes of the plans submitted before the throw, keeps the token, leaves the pending state the throw left, and reports the thrown error |
| Client.RunSessionIsThrowFree | index.js:28-111 | the chain succeeds exactly when nothing is thrown, and then yields the same outcomes and client as the interruptible run; otherwise its error is the one thrown |
| Client.ThrowKeepsEarlierFetches | index.js:36-102 | a usage error thrown after a completed chain does not withdraw that chain's fetches, and leaves its pending state for the client's next chain |
| Client.StoredETagIsSent | index.js:83-154 | end to end, after `cacheETag(v)` with a truthy `v` and any `cacheModified(w)`, the one GET sent carries `If-None-Match` with `v` and no `If-Modified-Since` |
| Client.RunSessionConcat | index.js:28-72 | the pending state persists between chains: two chains run one after the other deliver, in order, what their concatenation delivers |
| Client.ConnectedSessionReusesItsToken | index.js:7-72 | the token exchange runs once, when the client is created: every fetch of any chain that follows is delivered with that one outcome, and the client keeps it |
| Client.UnknownResourceMakesNoRequest | index.js:209-211 | a first segment outside the registry gives "Undefined resource <name> called." whatever the server would answer |
| Client.AuthFailureReachesEveryFetch | index.js:54-56 | when the token exchange failed, every fetch of the client delivers that same failure |
| Client.ChainedFetchRequestsItsPath | index.js:36-47 | segment accesses followed by `fetch` deliver the classified reply to one GET whose path those segments spell, carrying the client's token and no validator headers, and leave the builder empty |
| Errors.UnexpectedStatusMessageNamesCode | index.js:161 | the "unexpected HTTP response" message determines the status code it was built from |
| Errors.UndefinedResourceMessageNamesResource | index.js:210 | the "undefined resource" message determines the name it was built from |
| Errors.MessageIdentifiesError | index.js:80-271 | the messages the client builds (lines 80, 90, 100, 161-179, 210, 239-242, 257 and 271) tell the failures apart: two errors with the same message are the same error, down to the status code or resource name |

## Left out

- The HTTPS transport, redirect following and transport `error` events
  (index.js:155-159, 206-208, 237-269) are network I/O. Replies are parameters.
- `JSON.parse` and `querystring.stringify` are library calls. A reply carries
  its parse outcome, and the query string is the parameter `stringify`.
- Reading the response body in chunks (index.js:186-191, 245-249) is stream
  handling.
- Promise and callback plumbing (index.js:8-24, 45-71) is not modelled: both
  delivery routes pass on the same error-or-value pair. The constructor's
  optional callback (index.js:16-24) only reports the token outcome. The
  reject-then-resolve at index.js:11-13 has no effect once the promise is
  settled.
- Client.Deliver: an empty plan is reported as the `EmptyPlan` error. In the
  source, `methods[0].property` throws a `TypeError` inside the token promise's
  handler, so neither the callback nor the returned promise ever settles.
- Builder.Run: a thrown usage error yields only the error. The plans submitted
  before it and the state it leaves pending are modelled by
  `Builder.RunUntilThrow`, which `Builder.RunIsRunUntilThrow` ties to `Run`.
- Client.RunSession: likewise yields only the error on a throw. The fetches made
  before it and the pending state the next chain inherits are modelled by
  `Client.RunSessionUntilThrow`.
- Client.Connect: the token outcome is computed once and stored. Concurrent
  fetches waiting on the shared promise are not modelled, because there is no
  concurrency in a pure model.
- Builder.Snapshot: the plan is an immutable value, while the source's plan
  shares the caller's objects. `params` is read by `querystring.stringify` only
  when the token has settled (index.js:46-47, 144), so a caller who mutates the
  parameter object after `fetch` changes the request already submitted. A loop
  reusing one object with `p.page = i` sends the last page every time. The
  model's values cannot be mutated, so it does not show this.
- Builder.Access: one step is both the property read and the call of the
  closure it returns. The source separates them: the guards run at the read
  (index.js:74, 84, 94) and the store at the call (index.js:76, 86, 96), and
  `fetch` snapshots when its closure is called (index.js:37-40). So
  `const p = client.params; p(a); p(b)` stores twice without the "multiple
  params()" error, and `const f = client.fetch; client.Sku(1); f()` submits
  `Sku(1)`. Reads held back from their calls are not modelled.
- The Proxy mechanism is replaced by explicit accesses named by strings.
  Symbol-keyed reads (for example `Symbol.toPrimitive`) and reads of `then`
  by `await` are not modelled.
- Assembling the token request (query-string credentials, form body,
  `Content-Length: 29`; index.js:217-236, 268) is transport framing.
- The module-global `err` variable (index.js:5) and the unused `fs` import are not modelled.
- Js.JsValue: arrays, fractional numbers, `NaN`, functions and objects with a
  custom `toString` are not represented, and object property order is not kept.
  Numbers are the safe integers, at most 2^53 - 1 in magnitude, which JavaScript
  prints in plain decimal with every digit. Larger doubles are left out: JavaScript
  prints them as their shortest round-trip digits padded with zeros (`2**64`
  becomes `18446744073709552000`). Strings are sequences of Dafny characters,
  not of UTF-16 code units.
  A JSON array body would take a `cache` property; such a body is outside the model.
  An authentication object whose own `hasOwnProperty` is a function is not
  represented, since no modelled value is a function.

## Findings

| source | as written | input that shows it | evidently intended | confidence | as-written member | corrected member |
|---|---|---|---|---|---|---|
| index.js:94 | the `cacheModified` guard tests `cacheModified === undefined` twice and never tests `cacheETag` | `cacheETag("\"abc\"")` then `cacheModified("Tue, 01 Oct 2024 00:00:00 GMT")` is accepted and both are stored | refuse `cacheModified` when either validator is stored, as `cacheETag` does and as the shared error message says | high; not executed | Builder.WrittenSetterStoresBothValidators | Builder.IntendedSettersKeepOneValidator |
| index.js:135 | a resource without an argument leaves the path as the bare prefix, with no trailing slash, and index.js:144 then drops its last character | `Search()` with `params({q: "x"})` requests `/searc?q=x` | the bare prefix followed by `/`, so the query string replaces that slash: `/search?q=x` | medium; not executed | Request.BarePrefixLosesLastLetter | Request.IntendedQueryRemovesOnlySlash |

`Builder.Access` and `Request.BuildRequest` keep the behaviour as written,
because they describe what the client actually sends. The corrected definitions
are `Builder.SetCacheModifiedIntended` and `Request.PathOfIntended`. Each one's
intended property is proved by the member in the "corrected member" column.

=== FILE: builder.dfy ===
/**
  The call builder: the pending state the client's proxy closes over, and what
  each property access on the proxy does to it. A chained call
  `client.Category(40).skus().params(p).fetch()` is a sequence of accesses,
  each a property name and the argument its closure is then called with.

  Every guard is evaluated when the property is read, before the closure runs,
  so a guard's outcome never depends on the argument; each operation below
  takes the argument only to say what the closure stores.
 */
module Builder {
  import opened Js
  import opened Errors

  /** One chained step `.property(args)`; `args` is `Undefined` when the closure is called with nothing. */
  datatype Segment = Segment(property: string, args: JsValue)

  /** The four variables the proxy closes over. */
  datatype State = State(methods: seq<Segment>, params: JsValue, cacheETag: JsValue, cacheModified: JsValue)

  /** The private copy `fetch` takes of the four variables and hands to the request. */
  datatype Plan = Plan(methods: seq<Segment>, params: JsValue, cacheETag: JsValue, cacheModified: JsValue)

  /** The state of a freshly created client, and the state `fetch` leaves behind. */
  const Empty := State([], Undefined, Undefined, Undefined)

  /** The property names the proxy does not treat as path segments. */
  predicate Reserved(property: string) {
    property == "fetch" || property == "params" || property == "cacheETag" || property == "cacheModified"
  }

  /** Any other property: its closure records `{property, args}` at the end of the plan. */
  function AppendSegment(st: State, property: string, args: JsValue): (r: State)
    ensures |r.methods| == |st.methods| + 1
    ensures r.methods[..|st.methods|] == st.methods
    ensures r.methods[|st.methods|] == Segment(property, args)
    ensures r.params == st.params && r.cacheETag == st.cacheETag && r.cacheModified == st.cacheModified
  {
    st.(methods := st.methods + [Segment(property, args)])
  }

  /** `params`: refused once a parameter value other than `undefined` is stored. */
  function SetParams(st: State, parameters: JsValue): (r: Result<State>)
    ensures r.Err? <==> !st.params.Undefined?
    ensures r.Err? ==> r.error == MultipleParams
    ensures r.Ok? ==> r.value.params == parameters
    ensures r.Ok? ==> r.value.methods == st.methods && r.value.cacheETag == st.cacheETag
                      && r.value.cacheModified == st.cacheModified
  {
    if st.params.Undefined? then Ok(st.(params := parameters)) else Err(MultipleParams)
  }

  /** `cacheETag`: refused once either validator is stored. */
  function SetCacheETag(st: State, etag: JsValue): (r: Result<State>)
    ensures r.Err? <==> !st.cacheETag.Undefined? || !st.cacheModified.Undefined?
    ensures r.Err? ==> r.error == ValidatorConflict
    ensures r.Ok? ==> r.value.cacheETag == etag
    ensures r.Ok? ==> r.value.methods == st.methods && r.value.params == st.params
                      && r.value.cacheModified == st.cacheModified
  {
    if st.cacheETag.Undefined? && st.cacheModified.Undefined? then
      Ok(st.(cacheETag := etag))
    else
      Err(ValidatorConflict)
  }

  /** `cacheModified`, as the client writes its guard: only a stored
      Last-Modified value refuses it; a stored ETag does not. */
  function SetCacheModified(st: State, lastModified: JsValue): (r: Result<State>)
    ensures r.Err? <==> !st.cacheModified.Undefined?
    ensures r.Err? ==> r.error == ValidatorConflict
    ensures r.Ok? ==> r.value.cacheModified == lastModified
    ensures r.Ok? ==> r.value.methods == st.methods && r.value.params == st.params
                      && r.value.cacheETag == st.cacheETag
  {
    if st.cacheModified.Undefined? then Ok(st.(cacheModified := lastModified)) else Err(ValidatorConflict)
  }

  /** `cacheModified` with the guard its error message describes: refused once either validator is stored. */
  function SetCacheModifiedIntended(st: State, lastModified: JsValue): (r: Result<State>)
    ensures r.Err? <==> !st.cacheETag.Undefined? || !st.cacheModified.Undefined?
    ensures r.Err? ==> r.error == ValidatorConflict
    ensures r.Ok? ==> r.value.cacheModified == lastModified
    ensures r.Ok? ==> r.value.methods == st.methods && r.value.params == st.params
                      && r.value.cacheETag == st.cacheETag
  {
    if st.cacheETag.Undefined? && st.cacheModified.Undefined? then
      Ok(st.(cacheModified := lastModified))
    else
      Err(ValidatorConflict)
  }

  /** `fetch`: the four variables are copied and reset before anything else happens. */
  function Snapshot(st: State): (p: Plan)
    ensures p.methods == st.methods && p.params == st.params
    ensures p.cacheETag == st.cacheETag && p.cacheModified == st.cacheModified
  {
    Plan(st.methods, st.params, st.cacheETag, st.cacheModified)
  }

  /** What one property access (followed by the call of the returned closure) yields. */
  datatype Step = Chained(next: State) | Fetched(plan: Plan, next: State)

  /** A setter's outcome as a step: the chain continues from the new state, or the error is thrown. */
  function Chain(r: Result<State>): (s: Result<Step>)
    ensures s.Ok? <==> r.Ok?
    ensures r.Ok? ==> s.value == Chained(r.value)
    ensures r.Err? ==> s.error == r.error
  {
    match r
    case Ok(n) => Ok(Chained(n))
    case Err(e) => Err(e)
  }

  /** A property access `client[property]` followed by calling the closure with `arg`. */
  function Access(st: State, property: string, arg: JsValue): (r: Result<Step>)
    ensures property == "fetch" ==> r == Ok(Fetched(Snapshot(st), Empty))
    ensures !Reserved(property) ==> r == Ok(Chained(AppendSegment(st, property, arg)))
    ensures r.Err? ==> Reserved(property) && property != "fetch"
    ensures property == "params" ==> r == Chain(SetParams(st, arg))
    ensures property == "cacheETag" ==> r == Chain(SetCacheETag(st, arg))
    ensures property == "cacheModified" ==> r == Chain(SetCacheModified(st, arg))
  {
    if property == "fetch" then Ok(Fetched(Snapshot(st), Empty))
    else if property == "params" then Chain(SetParams(st, arg))
    else if property == "cacheETag" then Chain(SetCacheETag(st, arg))
    else if property == "cacheModified" then Chain(SetCacheModified(st, arg))
    else
      Ok(Chained(AppendSegment(st, property, arg)))
  }

  /** One access of a chain: the property read and the argument the closure receives. */
  datatype Call = Call(property: string, arg: JsValue)

  /** The plans a sequence of accesses submitted, and the pending state after them. */
  datatype Trace = Trace(plans: seq<Plan>, final: State)

  /** The number of `fetch` accesses among `calls`. */
  function FetchCount(calls: seq<Call>): nat {
    if calls == [] then 0 else (if calls[0].property == "fetch" then 1 else 0) + FetchCount(calls[1..])
  }

  /** A sequence of accesses; a thrown usage error ends the sequence. */
  function Run(st: State, calls: seq<Call>): Result<Trace>
    decreases |calls|
  {
    if calls == [] then Ok(Trace([], st))
    else
      match Access(st, calls[0].property, calls[0].arg)
      case Err(e) => Err(e)
      case Ok(Chained(n)) => Run(n, calls[1..])
      case Ok(Fetched(p, n)) =>
        match Run(n, calls[1..])
        case Err(e) => Err(e)
        case Ok(t) => Ok(Trace([p] + t.plans, t.final))
  }

  /** A run that completes submits one plan per `fetch`; a run that fails
      met a `params` or validator access, and fails with a usage error. */
  lemma {:induction false} RunSubmitsOnePlanPerFetch(st: State, calls: seq<Call>)
    ensures Run(st, calls).Ok? ==> |Run(st, calls).value.plans| == FetchCount(calls)
    ensures Run(st, calls).Err? ==>
              exists i :: 0 <= i < |calls| && Reserved(calls[i].property) && calls[i].property != "fetch"
    ensures Run(st, calls).Err? ==>
              Run(st, calls).error == MultipleParams || Run(st, calls).error == ValidatorConflict
    decreases |calls|
  {
    if calls != [] {
      match Access(st, calls[0].property, calls[0].arg)
      case Err(_) =>
        assert Reserved(calls[0].property);
      case Ok(step) =>
        RunSubmitsOnePlanPerFetch(step.next, calls[1..]);
        if Run(step.next, calls[1..]).Err? {
          var i :| 0 <= i < |calls[1..]| && Reserved(calls[1..][i].property) && calls[1..][i].property != "fetch";
          assert calls[i + 1] == calls[1..][i];
        }
    }
  }

  /** Continue a run that ended in `t` with further accesses. */
  function Continue(r: Result<Trace>, calls: seq<Call>): Result<Trace> {
    match r
    case Err(e) => Err(e)
    case Ok(t) =>
      match Run(t.final, calls)
      case Err(e) => Err(e)
      case Ok(u) => Ok(Trace(t.plans + u.plans, u.final))
  }

  /** Running two sequences one after the other is running their concatenation. */
  lemma {:induction false} RunConcat(st: State, xs: seq<Call>, ys: seq<Call>)
    ensures Run(st, xs + ys) == Continue(Run(st, xs), ys)
    decreases |xs|
  {
    if xs == [] {
      assert xs + ys == ys;
      match Run(st, ys)
      case Err(e) =>
      case Ok(u) => assert [] + u.plans == u.plans;
    } else {
      assert (xs + ys)[0] == xs[0];
      assert (xs + ys)[1..] == xs[1..] + ys;
      match Access(st, xs[0].property, xs[0].arg)
      case Err(e) =>
      case Ok(Chained(n)) =>
        RunConcat(n, xs[1..], ys);
      case Ok(Fetched(p, n)) =>
        RunConcat(n, xs[1..], ys);
        match Run(n, xs[1..])
        case Err(e) =>
        case Ok(t) =>
          match Run(t.final, ys)
          case Err(e) =>
          case Ok(u) => assert [p] + (t.plans + u.plans) == ([p] + t.plans) + u.plans;
    }
  }

  /** What a sequence of accesses leaves behind when a thrown usage error may
      interrupt it: the plans already submitted, the pending state, and the
      error, if one was thrown. A throw does not reset the builder. */
  datatype Outcome = Outcome(plans: seq<Plan>, pending: State, thrown: Option<ClientError>)

  /** A sequence of accesses, up to the first one that throws. */
  function RunUntilThrow(st: State, calls: seq<Call>): Outcome
    decreases |calls|
  {
    if calls == [] then Outcome([], st, None)
    else
      match Access(st, calls[0].property, calls[0].arg)
      case Err(e) => Outcome([], st, Some(e))
      case Ok(Chained(n)) => RunUntilThrow(n, calls[1..])
      case Ok(Fetched(p, n)) =>
        var o := RunUntilThrow(n, calls[1..]);
        o.(plans := [p] + o.plans)
  }

  /** `Run` is the throw-free reading of `RunUntilThrow`: it completes exactly
      when nothing is thrown, with the same plans and pending state, and
      otherwise fails with the thrown error. */
  lemma {:induction false} RunIsRunUntilThrow(st: State, calls: seq<Call>)
    ensures var o := RunUntilThrow(st, calls);
            (Run(st, calls).Ok? <==> o.thrown.None?)
            && (Run(st, calls).Ok? ==> Run(st, calls).value == Trace(o.plans, o.pending))
            && (Run(st, calls).Err? ==> o.thrown == Some(Run(st, calls).error))
    decreases |calls|
  {
    if calls != [] {
      match Access(st, calls[0].property, calls[0].arg)
      case Err(_) =>
      case Ok(step) =>
        RunIsRunUntilThrow(step.next, calls[1..]);
    }
  }

  /** An access that throws after a completed run `pre` leaves every plan `pre`
      submitted submitted, and the state `pre` ended in pending; nothing after
      it runs. */
  lemma {:induction false} ThrowKeepsEarlierWork(st: State, pre: seq<Call>, bad: Call, rest: seq<Call>)
    requires Run(st, pre).Ok?
    requires Access(Run(st, pre).value.final, bad.property, bad.arg).Err?
    ensures var t := Run(st, pre).value;
            RunUntilThrow(st, pre + [bad] + rest)
            == Outcome(t.plans, t.final, Some(Access(t.final, bad.property, bad.arg).error))
    decreases |pre|
  {
    var calls := pre + [bad] + rest;
    if pre == [] {
      assert calls[0] == bad;
    } else {
      assert calls[0] == pre[0];
      assert calls[1..] == pre[1..] + [bad] + rest;
      match Access(st, pre[0].property, pre[0].arg)
      case Err(_) =>
      case Ok(step) =>
        ThrowKeepsEarlierWork(step.next, pre[1..], bad, rest);
    }
  }

  /** `Category(1).fetch()`, then `params("a").params("b")`: the second
      `params` throws, the Category plan has been submitted, and `"a"` stays
      pending for the next chain. */
  lemma ThrowAfterFetchKeepsPlanAndParams()
    ensures RunUntilThrow(Empty, [Call("Category", Number(1)), Call("fetch", Undefined),
                                  Call("params", Str("a")), Call("params", Str("b"))])
            == Outcome([Plan([Segment("Category", Number(1))], Undefined, Undefined, Undefined)],
                       Empty.(params := Str("a")), Some(MultipleParams))
  {
    var pre := [Call("Category", Number(1)), Call("fetch", Undefined), Call("params", Str("a"))];
    var plan := Plan([Segment("Category", Number(1))], Undefined, Undefined, Undefined);
    var s1 := Empty.(methods := [Segment("Category", Number(1))]);
    assert Run(Empty, pre[2..]) == Ok(Trace([], Empty.(params := Str("a")))) by {
      assert pre[2..][1..] == [];
    }
    assert Run(s1, pre[1..]) == Ok(Trace([plan], Empty.(params := Str("a")))) by {
      assert pre[1..][1..] == pre[2..];
      assert [Snapshot(s1)] + [] == [plan];
    }
    assert Run(Empty, pre) == Ok(Trace([plan], Empty.(params := Str("a")))) by {
      assert Access(Empty, "Category", Number(1)) == Ok(Chained(s1));
    }
    ThrowKeepsEarlierWork(Empty, pre, Call("params", Str("b")), []);
    assert pre + [Call("params", Str("b"))] + [] == [Call("Category", Number(1)), Call("fetch", Undefined),
                                                     Call("params", Str("a")), Call("params", Str("b"))];
  }

  predicate SegmentCalls(calls: seq<Call>) {
    forall i :: 0 <= i < |calls| ==> !Reserved(calls[i].property)
  }

  function SegmentsOf(calls: seq<Call>): (segs: seq<Segment>)
    ensures |segs| == |calls|
    ensures forall i :: 0 <= i < |calls| ==> segs[i] == Segment(calls[i].property, calls[i].arg)
  {
    if calls == [] then [] else [Segment(calls[0].property, calls[0].arg)] + SegmentsOf(calls[1..])
  }

  /** A run that starts with a segment access continues from the extended state. */
  lemma RunSegmentStep(st: State, calls: seq<Call>)
    requires calls != [] && !Reserved(calls[0].property)
    ensures Run(st, calls) == Run(AppendSegment(st, calls[0].property, calls[0].arg), calls[1..])
  {
  }

  /** Recording the first segment and then the rest records them all. */
  lemma AppendThenRecord(st: State, calls: seq<Call>)
    requires calls != []
    ensures AppendSegment(st, calls[0].property, calls[0].arg).methods + SegmentsOf(calls[1..])
            == st.methods + SegmentsOf(calls)
  {
    var seg := Segment(calls[0].property, calls[0].arg);
    assert SegmentsOf(calls) == [seg] + SegmentsOf(calls[1..]);
    assert (st.methods + [seg]) + SegmentsOf(calls[1..]) == st.methods + ([seg] + SegmentsOf(calls[1..]));
  }

  /** Segment accesses never fail, submit nothing, and record their segments in call order. */
  lemma {:induction false} SegmentCallsRecordInOrder(st: State, calls: seq<Call>)
    requires SegmentCalls(calls)
    ensures Run(st, calls) == Ok(Trace([], st.(methods := st.methods + SegmentsOf(calls))))
    decreases |calls|
  {
    if calls != [] {
      var n := AppendSegment(st, calls[0].property, calls[0].arg);
      RunSegmentStep(st, calls);
      assert SegmentCalls(calls[1..]);
      SegmentCallsRecordInOrder(n, calls[1..]);
      AppendThenRecord(st, calls);
      assert n.(methods := n.methods + SegmentsOf(calls[1..])) == st.(methods := st.methods + SegmentsOf(calls));
    } else {
      assert st.methods + SegmentsOf(calls) == st.methods;
    }
  }

  /** After a fetch the builder starts from an empty plan: what follows a fetch
      does not depend on anything accessed before it. */
  lemma FetchStartsFresh(st: State, cb: JsValue, rest: seq<Call>)
    ensures Run(st, [Call("fetch", cb)] + rest) == Continue(Ok(Trace([Snapshot(st)], Empty)), rest)
  {
  }

  /** A chain of segment accesses followed by `fetch` submits exactly those
      segments, with no parameters or validators, and leaves the builder empty. */
  lemma ChainThenFetch(calls: seq<Call>, cb: JsValue)
    requires SegmentCalls(calls)
    ensures Run(Empty, calls + [Call("fetch", cb)])
            == Ok(Trace([Plan(SegmentsOf(calls), Undefined, Undefined, Undefined)], Empty))
  {
    var s1 := Empty.(methods := SegmentsOf(calls));
    RunConcat(Empty, calls, [Call("fetch", cb)]);
    SegmentCallsRecordInOrder(Empty, calls);
    assert [] + SegmentsOf(calls) == SegmentsOf(calls);
    assert Run(Empty, calls) == Ok(Trace([], s1));
    assert Run(s1, [Call("fetch", cb)]) == Ok(Trace([Snapshot(s1)], Empty)) by {
      assert [Call("fetch", cb)][1..] == [];
      assert Run(Empty, []) == Ok(Trace([], Empty));
      assert [Snapshot(s1)] + [] == [Snapshot(s1)];
    }
    assert [] + [Snapshot(s1)] == [Snapshot(s1)];
  }

  /** Segments, then `cacheETag(v)` with `v` defined, then `cacheModified(w)`,
      then `fetch`: the guard as written lets both validators into the plan. */
  lemma ChainWithBothValidatorsThenFetch(calls: seq<Call>, v: JsValue, w: JsValue, cb: JsValue)
    requires SegmentCalls(calls) && !v.Undefined?
    ensures Run(Empty, calls + [Call("cacheETag", v), Call("cacheModified", w), Call("fetch", cb)])
            == Ok(Trace([Plan(SegmentsOf(calls), Undefined, v, w)], Empty))
  {
    var tail := [Call("cacheETag", v), Call("cacheModified", w), Call("fetch", cb)];
    var s1 := Empty.(methods := SegmentsOf(calls));
    var s2 := s1.(cacheETag := v);
    var s3 := s2.(cacheModified := w);
    RunConcat(Empty, calls, tail);
    SegmentCallsRecordInOrder(Empty, calls);
    assert [] + SegmentsOf(calls) == SegmentsOf(calls);
    assert Run(s3, tail[2..]) == Ok(Trace([Snapshot(s3)], Empty)) by {
      assert tail[2..][1..] == [];
      assert Run(Empty, []) == Ok(Trace([], Empty));
      assert [Snapshot(s3)] + [] == [Snapshot(s3)];
    }
    assert Run(s2, tail[1..]) == Ok(Trace([Snapshot(s3)], Empty)) by {
      assert tail[1..][1..] == tail[2..];
      assert Access(s2, "cacheModified", w) == Ok(Chained(s3));
    }
    assert Run(s1, tail) == Ok(Trace([Snapshot(s3)], Empty)) by {
      assert Access(s1, "cacheETag", v) == Ok(Chained(s2));
    }
    assert [] + [Snapshot(s3)] == [Snapshot(s3)];
  }

  /** Calls that neither fetch nor set parameters leave a stored parameter value in place. */
  predicate KeepsParams(calls: seq<Call>) {
    forall i :: 0 <= i < |calls| ==> calls[i].property != "fetch" && calls[i].property != "params"
  }

  /** Once a defined parameter value is stored, a further `params` before the
      next `fetch` always ends the chain with an error. */
  lemma {:induction false} SecondParamsFails(st: State, calls: seq<Call>, q: JsValue)
    requires !st.params.Undefined?
    requires KeepsParams(calls)
    ensures Run(st, calls + [Call("params", q)]).Err?
    decreases |calls|
  {
    if calls == [] {
      assert calls + [Call("params", q)] == [Call("params", q)];
    } else {
      assert (calls + [Call("params", q)])[0] == calls[0];
      assert (calls + [Call("params", q)])[1..] == calls[1..] + [Call("params", q)];
      match Access(st, calls[0].property, calls[0].arg)
      case Err(_) =>
      case Ok(s) =>
        SecondParamsFails(s.next, calls[1..], q);
    }
  }

  /** `params(p)` twice in one chain, with only segment accesses between, fails with "multiple params()". */
  lemma ParamsTwice(st: State, p: JsValue, mid: seq<Call>, q: JsValue)
    requires st.params.Undefined? && !p.Undefined?
    requires SegmentCalls(mid)
    ensures Run(st, [Call("params", p)] + mid + [Call("params", q)]) == Err(MultipleParams)
  {
    var s1 := st.(params := p);
    var calls := [Call("params", p)] + mid + [Call("params", q)];
    assert calls == [Call("params", p)] + (mid + [Call("params", q)]);
    assert calls[1..] == mid + [Call("params", q)];
    RunConcat(s1, mid, [Call("params", q)]);
    SegmentCallsRecordInOrder(s1, mid);
  }

  /** The two validator setters as the client writes them: ETag first, then
      Last-Modified, is accepted and stores both. */
  lemma ETagThenModifiedAccepted(etag: JsValue, lastModified: JsValue)
    requires !etag.Undefined?
    ensures Run(Empty, [Call("cacheETag", etag), Call("cacheModified", lastModified)])
            == Ok(Trace([], State([], Undefined, etag, lastModified)))
  {
    var calls := [Call("cacheETag", etag), Call("cacheModified", lastModified)];
    var s1 := Empty.(cacheETag := etag);
    assert Access(Empty, "cacheETag", etag) == Ok(Chained(s1));
    assert calls[1..] == [Call("cacheModified", lastModified)];
    assert Access(s1, "cacheModified", lastModified) == Ok(Chained(s1.(cacheModified := lastModified)));
    assert Run(s1.(cacheModified := lastModified), calls[2..]) == Ok(Trace([], s1.(cacheModified := lastModified)));
  }

  /** Last-Modified first, then ETag, is refused. */
  lemma ModifiedThenETagRefused(lastModified: JsValue, etag: JsValue)
    requires !lastModified.Undefined?
    ensures Run(Empty, [Call("cacheModified", lastModified), Call("cacheETag", etag)]) == Err(ValidatorConflict)
  {
  }

  predicate AtMostOneValidator(st: State) {
    st.cacheETag.Undefined? || st.cacheModified.Undefined?
  }

  /** With the intended guard, the two setters never leave both validators stored. */
  lemma IntendedSettersKeepOneValidator(st: State, v: JsValue)
    requires AtMostOneValidator(st)
    ensures SetCacheETag(st, v).Ok? ==> AtMostOneValidator(SetCacheETag(st, v).value)
    ensures SetCacheModifiedIntended(st, v).Ok? ==> AtMostOneValidator(SetCacheModifiedIntended(st, v).value)
  {
  }

  /** With the guard as written, the same setters can leave both validators stored. */
  lemma WrittenSetterStoresBothValidators()
    ensures var st := SetCacheETag(Empty, Str("\"abc\"")).value;
            AtMostOneValidator(st) && SetCacheModified(st, Str("Tue, 01 Oct 2024 00:00:00 GMT")).Ok?
            && !AtMostOneValidator(SetCacheModified(st, Str("Tue, 01 Oct 2024 00:00:00 GMT")).value)
  {
  }
}

=== FILE: client.dfy ===
/**
  The client as a whole: the token exchange runs once, when the client is
  created, and every fetch waits on its single outcome; each fetch snapshots
  the builder, builds its request from the snapshot and that token, and
  classifies the reply. The network is a parameter: `server` answers the
  resource GET and `authServer` the token request.
 */
module Client {
  import opened Js
  import opened Errors
  import opened Builder
  import opened Request
  import opened Response

  /** A client: the settled outcome of its one token exchange, and the builder's pending state. */
  datatype Session = Session(token: Result<JsValue>, pending: State)

  /** Creating a client starts the token exchange and leaves the builder empty. */
  function Connect(auth: JsValue, authServer: Credentials -> TokenReply): (s: Session)
    ensures s.pending == Empty
    ensures s.token == Authorize(auth, authServer)
  {
    Session(Authorize(auth, authServer), Empty)
  }

  /** What a fetch delivers for a submitted plan, once the token has settled. */
  function Deliver(plan: Plan, token: Result<JsValue>, stringify: JsValue -> string, server: Get -> Reply)
    : (r: Result<JsValue>)
    ensures token.Err? ==> r == Err(token.error)
    ensures token.Ok? && BuildRequest(plan, token.value, stringify).Err? ==>
              r == Err(BuildRequest(plan, token.value, stringify).error)
    ensures token.Ok? && BuildRequest(plan, token.value, stringify).Ok? ==>
              r == ResourceResult(server(BuildRequest(plan, token.value, stringify).value))
  {
    match token
    case Err(e) => Err(e)
    case Ok(t) =>
      match BuildRequest(plan, t, stringify)
      case Err(e) => Err(e)
      case Ok(get) => ResourceResult(server(get))
  }

  /** `fetch` on a client: the snapshot is delivered and the builder is reset; the token is reused. */
  function Fetch(s: Session, stringify: JsValue -> string, server: Get -> Reply): (r: (Result<JsValue>, Session))
    ensures r.1.token == s.token && r.1.pending == Empty
    ensures r.0 == Deliver(Snapshot(s.pending), s.token, stringify, server)
  {
    (Deliver(Snapshot(s.pending), s.token, stringify, server), s.(pending := Empty))
  }

  /** A first segment outside the registry yields "undefined resource" and
      issues no request: the outcome is the same whatever the server would answer. */
  lemma UnknownResourceMakesNoRequest(plan: Plan, t: JsValue, stringify: JsValue -> string,
                                      s1: Get -> Reply, s2: Get -> Reply)
    requires plan.methods != [] && plan.methods[0].property !in Resources
    ensures Deliver(plan, Ok(t), stringify, s1) == Err(UndefinedResource(plan.methods[0].property))
    ensures Deliver(plan, Ok(t), stringify, s1) == Deliver(plan, Ok(t), stringify, s2)
  {
  }

  /** The outcomes of a sequence of submitted plans, all delivered with the one token. */
  function DeliverAll(plans: seq<Plan>, token: Result<JsValue>, stringify: JsValue -> string,
                      server: Get -> Reply): (rs: seq<Result<JsValue>>)
    ensures |rs| == |plans|
    ensures forall i :: 0 <= i < |plans| ==> rs[i] == Deliver(plans[i], token, stringify, server)
  {
    if plans == [] then [] else [Deliver(plans[0], token, stringify, server)] + DeliverAll(plans[1..], token, stringify, server)
  }

  /** A failed token exchange is what every fetch of the client delivers. */
  lemma AuthFailureReachesEveryFetch(plans: seq<Plan>, e: ClientError,
                                     stringify: JsValue -> string, server: Get -> Reply)
    ensures forall i :: 0 <= i < |plans| ==> DeliverAll(plans, Err(e), stringify, server)[i] == Err(e)
  {
  }

  /** A chain of accesses on a client: the results of the fetches it makes, in order, and the client after it. */
  function RunSession(s: Session, calls: seq<Call>, stringify: JsValue -> string, server: Get -> Reply)
    : (r: Result<(seq<Result<JsValue>>, Session)>)
    ensures r.Ok? <==> Run(s.pending, calls).Ok?
    ensures r.Err? ==> r.error == Run(s.pending, calls).error
    ensures r.Ok? ==> r.value.1 == Session(s.token, Run(s.pending, calls).value.final)
    ensures r.Ok? ==> var plans := Run(s.pending, calls).value.plans;
                      |r.value.0| == |plans|
                      && forall i :: 0 <= i < |plans| ==> r.value.0[i] == Deliver(plans[i], s.token, stringify, server)
  {
    match Run(s.pending, calls)
    case Err(e) => Err(e)
    case Ok(t) => Ok((DeliverAll(t.plans, s.token, stringify, server), s.(pending := t.final)))
  }

  /** End to end: segment accesses then `fetch` issue one GET for exactly
      the path those segments spell, with the client's token, and leave the
      builder empty for the next chain. */
  lemma {:induction false} ChainedFetchRequestsItsPath(s: Session, calls: seq<Call>, cb: JsValue, t: JsValue,
                                    stringify: JsValue -> string, server: Get -> Reply)
    requires s.pending == Empty && s.token == Ok(t)
    requires SegmentCalls(calls) && calls != [] && calls[0].property in Resources
    ensures var uri := Resources[calls[0].property];
            var get := Get(ApiHost, PathOf(uri, SegmentsOf(calls)), Headers(t, Undefined, Undefined));
            RunSession(s, calls + [Call("fetch", cb)], stringify, server)
            == Ok(([ResourceResult(server(get))], Session(Ok(t), Empty)))
  {
    ChainThenFetch(calls, cb);
    var plan := Plan(SegmentsOf(calls), Undefined, Undefined, Undefined);
    assert plan.methods[0].property == calls[0].property;
    assert DeliverAll([plan], Ok(t), stringify, server) == [Deliver(plan, Ok(t), stringify, server)];
  }

  /** `fetch` on its own is the one-access session: `Fetch` and `RunSession` agree. */
  lemma FetchIsOneAccessSession(s: Session, cb: JsValue, stringify: JsValue -> string, server: Get -> Reply)
    ensures var f := Fetch(s, stringify, server);
            RunSession(s, [Call("fetch", cb)], stringify, server) == Ok(([f.0], f.1))
  {
    var calls := [Call("fetch", cb)];
    assert calls[1..] == [];
    assert Run(Empty, []) == Ok(Trace([], Empty));
    assert [Snapshot(s.pending)] + [] == [Snapshot(s.pending)];
    assert Run(s.pending, calls) == Ok(Trace([Snapshot(s.pending)], Empty));
    var r := RunSession(s, calls, stringify, server);
    assert r.value.0 == [Fetch(s, stringify, server).0];
  }

  /** The token is obtained once, when the client is created: whatever chain
      follows, every fetch in it is delivered with the outcome of that one
      exchange, and the client keeps that outcome for later chains. */
  lemma ConnectedSessionReusesItsToken(auth: JsValue, authServer: Credentials -> TokenReply, calls: seq<Call>,
                                       stringify: JsValue -> string, server: Get -> Reply)
    ensures var token := Authorize(auth, authServer);
            var r := RunSession(Connect(auth, authServer), calls, stringify, server);
            r.Ok? ==> r.value.1.token == token
                      && forall i :: 0 <= i < |r.value.0| ==>
                           r.value.0[i] == Deliver(Run(Empty, calls).value.plans[i], token, stringify, server)
  {
  }

  /** Delivering two lists of plans one after the other delivers their concatenation. */
  lemma DeliverAllConcat(ps: seq<Plan>, qs: seq<Plan>, token: Result<JsValue>,
                         stringify: JsValue -> string, server: Get -> Reply)
    ensures DeliverAll(ps + qs, token, stringify, server)
            == DeliverAll(ps, token, stringify, server) + DeliverAll(qs, token, stringify, server)
  {
    var both := DeliverAll(ps + qs, token, stringify, server);
    var split := DeliverAll(ps, token, stringify, server) + DeliverAll(qs, token, stringify, server);
    assert forall i :: 0 <= i < |both| ==> both[i] == split[i] by {
      forall i | 0 <= i < |both|
        ensures both[i] == split[i]
      {
        if i >= |ps| {
          assert (ps + qs)[i] == qs[i - |ps|];
        }
      }
    }
  }

  /** Two chains run one after the other on a client deliver, in order, the
      fetches of the concatenated chain. */
  lemma RunSessionConcat(s: Session, xs: seq<Call>, ys: seq<Call>, stringify: JsValue -> string,
                         server: Get -> Reply)
    requires RunSession(s, xs, stringify, server).Ok?
    ensures var first := RunSession(s, xs, stringify, server).value;
            var second := RunSession(first.1, ys, stringify, server);
            var both := RunSession(s, xs + ys, stringify, server);
            (both.Ok? <==> second.Ok?)
            && (both.Ok? ==> both.value == (first.0 + second.value.0, second.value.1))
  {
    RunConcat(s.pending, xs, ys);
    var t := Run(s.pending, xs).value;
    match Run(t.final, ys)
    case Err(_) =>
    case Ok(u) =>
      DeliverAllConcat(t.plans, u.plans, s.token, stringify, server);
  }

  /** A chain on a client that a thrown usage error may interrupt: the
      outcomes of the fetches made before the throw, the client after it
      (keeping the pending state the throw left), and the error thrown, if any. */
  function RunSessionUntilThrow(s: Session, calls: seq<Call>, stringify: JsValue -> string, server: Get -> Reply)
    : (r: (seq<Result<JsValue>>, Session, Option<ClientError>))
    ensures var o := RunUntilThrow(s.pending, calls);
            |r.0| == |o.plans|
            && (forall i :: 0 <= i < |o.plans| ==> r.0[i] == Deliver(o.plans[i], s.token, stringify, server))
            && r.1 == Session(s.token, o.pending)
            && r.2 == o.thrown
  {
    var o := RunUntilThrow(s.pending, calls);
    (DeliverAll(o.plans, s.token, stringify, server), Session(s.token, o.pending), o.thrown)
  }

  /** `RunSession` is the throw-free reading of `RunSessionUntilThrow`. */
  lemma RunSessionIsThrowFree(s: Session, calls: seq<Call>, stringify: JsValue -> string, server: Get -> Reply)
    ensures var r := RunSession(s, calls, stringify, server);
            var u := RunSessionUntilThrow(s, calls, stringify, server);
            (r.Ok? <==> u.2.None?)
            && (r.Ok? ==> r.value == (u.0, u.1))
            && (r.Err? ==> u.2 == Some(r.error))
  {
    RunIsRunUntilThrow(s.pending, calls);
  }

  /** A usage error thrown after a completed chain `pre` does not withdraw the
      fetches `pre` made, and leaves the client with the pending state `pre`
      ended in, for its next chain to inherit. */
  lemma ThrowKeepsEarlierFetches(s: Session, pre: seq<Call>, bad: Call, rest: seq<Call>,
                                 stringify: JsValue -> string, server: Get -> Reply)
    requires Run(s.pending, pre).Ok?
    requires Access(Run(s.pending, pre).value.final, bad.property, bad.arg).Err?
    ensures var done := RunSession(s, pre, stringify, server).value;
            var u := RunSessionUntilThrow(s, pre + [bad] + rest, stringify, server);
            u.0 == done.0 && u.1 == done.1 && u.2.Some?
  {
    ThrowKeepsEarlierWork(s.pending, pre, bad, rest);
  }

  /** End to end, the validators a chain stores decide the conditional header
      sent: after `cacheETag(v)` with a truthy `v` and any `cacheModified(w)`,
      the one GET carries `If-None-Match: v` and no `If-Modified-Since`. */
  lemma {:induction false} StoredETagIsSent(s: Session, calls: seq<Call>, v: JsValue, w: JsValue, cb: JsValue,
                                            t: JsValue, stringify: JsValue -> string, server: Get -> Reply)
    requires s.pending == Empty && s.token == Ok(t)
    requires SegmentCalls(calls) && calls != [] && calls[0].property in Resources
    requires Truthy(v)
    ensures var uri := Resources[calls[0].property];
            var get := Get(ApiHost, PathOf(uri, SegmentsOf(calls)), Headers(t, v, w));
            RunSession(s, calls + [Call("cacheETag", v), Call("cacheModified", w), Call("fetch", cb)],
                       stringify, server)
            == Ok(([ResourceResult(server(get))], Session(Ok(t), Empty)))
            && get.headers["If-None-Match"] == ToJsString(v) && "If-Modified-Since" !in get.headers
  {
    ChainWithBothValidatorsThenFetch(calls, v, w, cb);
    var plan := Plan(SegmentsOf(calls), Undefined, v, w);
    assert plan.methods[0].property == calls[0].property;
    assert DeliverAll([plan], Ok(t), stringify, server) == [Deliver(plan, Ok(t), stringify, server)];
  }
}

=== FILE: errors.dfy ===
/**
  The failures the client hands to its caller, and the result type every
  operation of the model returns. The messages are the ones the client
  constructs with `new Error(…)`; failures raised by the JavaScript engine
  itself (a `SyntaxError` from `JSON.parse`, a `TypeError` from touching a
  property of `null` or of a primitive, or from calling an own property
  `hasOwnProperty` that is not a function) are kinds without a modelled message.
 */
module Errors {
  import opened Js

  datatype ClientError =
      // usage errors, thrown at property access on the builder
    | MultipleParams
    | ValidatorConflict
      // request construction
    | EmptyPlan
    | UndefinedResource(name: string)
      // resource GET status classification
    | NotFound
    | BadRequest
    | InvalidCredentials
    | ServerError
    | NotImplemented
    | Forbidden
    | UnexpectedStatus(code: PlainInt)
      // token exchange
    | WrongAuthObject
    | UnexpectedData
      // raised by the engine, not by the client
    | JsonSyntaxError
    | ReadOfNull
    | AssignToPrimitive
    | CallOfNonFunction
  {
    /** True of the errors the client builds itself, with a fixed wording. */
    predicate RaisedByClient() {
      !(EmptyPlan? || JsonSyntaxError? || ReadOfNull? || AssignToPrimitive? || CallOfNonFunction?)
    }
  }

  datatype Result<+T> = Ok(value: T) | Err(error: ClientError)

  const UnexpectedStatusPrefix := "Unexpected HTTP response. HTTP error code: "

  /** The message of an error the client constructs. */
  function Message(e: ClientError): (m: string)
    requires e.RaisedByClient()
  {
    match e
    case MultipleParams => "Used multiple params() methods on one API call. Use only one object."
    case ValidatorConflict => "Using cacheEtag() with cacheModified() method on one API call is prohibited."
    case UndefinedResource(name) => "Undefined resource " + name + " called."
    case NotFound => "Error 404. Not Found. Resource does not exist."
    case BadRequest => "Error 400. Bad request. A required parameter is missing or incorrect."
    case InvalidCredentials => "Error 401. Invalid client credentials."
    case ServerError => "Error 500. Internal Server Error. Something is broken."
    case NotImplemented => "Error 501. Not Implemented. The requested action is not implemented."
    case Forbidden => "Error 403. Access forbidden. Was the API rate limit reached?"
    case UnexpectedStatus(code) => UnexpectedStatusPrefix + NumberToString(code)
    case WrongAuthObject =>
      "Wrong or missing authentication object. Use an object with the keys 'client_id' and 'client_secret'"
    case UnexpectedData => "Unexpected DATA from SKROUTZ API"
  }

  /** An unexpected status message names the status code it was built from. */
  lemma UnexpectedStatusMessageNamesCode(a: PlainInt, b: PlainInt)
    requires Message(UnexpectedStatus(a)) == Message(UnexpectedStatus(b))
    ensures a == b
  {
    var p := |UnexpectedStatusPrefix|;
    assert Message(UnexpectedStatus(a))[p..] == NumberToString(a);
    assert Message(UnexpectedStatus(b))[p..] == NumberToString(b);
    NumberToStringInjective(a, b);
  }

  /** An undefined-resource message names the resource it was built from. */
  lemma UndefinedResourceMessageNamesResource(a: string, b: string)
    requires Message(UndefinedResource(a)) == Message(UndefinedResource(b))
    ensures a == b
  {
    var m := Message(UndefinedResource(a));
    assert m[19..|m| - 8] == a;
    assert Message(UndefinedResource(b))[19..|m| - 8] == b;
  }

  /** The errors whose message is a fixed sentence. */
  predicate FixedMessage(e: ClientError) {
    e.RaisedByClient() && !e.UnexpectedStatus? && !e.UndefinedResource?
  }

  /** The fifth- and fourth-to-last characters of each fixed sentence; no
      two sentences share them. */
  function FixedEnding(e: ClientError): (char, char)
    requires FixedMessage(e)
  {
    match e
    case MultipleParams => ('j', 'e')
    case ValidatorConflict => ('i', 't')
    case NotFound => ('x', 'i')
    case BadRequest => ('r', 'e')
    case InvalidCredentials => ('i', 'a')
    case ServerError => ('o', 'k')
    case NotImplemented => ('n', 't')
    case Forbidden => ('c', 'h')
    case WrongAuthObject => ('c', 'r')
    case UnexpectedData => ('Z', ' ')
  }

  /** `m` has `ending` as its fifth- and fourth-to-last characters, and does not end in a digit. */
  predicate EndsAs(m: string, ending: (char, char)) {
    |m| >= 5 && m[|m| - 5] == ending.0 && m[|m| - 4] == ending.1 && !IsDigit(m[|m| - 1])
  }

  lemma UsageSentencesEnd(e: ClientError)
    requires e == MultipleParams || e == ValidatorConflict
    ensures EndsAs(Message(e), FixedEnding(e))
  {
  }

  lemma ClientStatusSentencesEnd(e: ClientError)
    requires e == NotFound || e == BadRequest
    ensures EndsAs(Message(e), FixedEnding(e))
  {
  }

  lemma AccessStatusSentencesEnd(e: ClientError)
    requires e == InvalidCredentials || e == Forbidden
    ensures EndsAs(Message(e), FixedEnding(e))
  {
  }

  lemma ServerStatusSentencesEnd(e: ClientError)
    requires e == ServerError || e == NotImplemented
    ensures EndsAs(Message(e), FixedEnding(e))
  {
  }

  lemma TokenSentencesEnd(e: ClientError)
    requires e == WrongAuthObject || e == UnexpectedData
    ensures EndsAs(Message(e), FixedEnding(e))
  {
  }

  lemma FixedMessageShape(e: ClientError)
    requires FixedMessage(e)
    ensures EndsAs(Message(e), FixedEnding(e))
  {
    if e.MultipleParams? || e.ValidatorConflict? {
      UsageSentencesEnd(e);
    } else if e.NotFound? || e.BadRequest? {
      ClientStatusSentencesEnd(e);
    } else if e.InvalidCredentials? || e.Forbidden? {
      AccessStatusSentencesEnd(e);
    } else if e.ServerError? || e.NotImplemented? {
      ServerStatusSentencesEnd(e);
    } else {
      TokenSentencesEnd(e);
    }
  }

  /** A string ends as at most one fixed sentence does, and never like " called.". */
  lemma EndingIdentifiesSentence(m: string, a: ClientError, b: ClientError)
    requires FixedMessage(a) && FixedMessage(b)
    requires EndsAs(m, FixedEnding(a)) && EndsAs(m, FixedEnding(b))
    ensures a == b
    ensures m[|m| - 4] != 'l'
  {
  }

  /** The fixed sentences are pairwise distinct. */
  lemma FixedMessagesDistinct(a: ClientError, b: ClientError)
    requires FixedMessage(a) && FixedMessage(b) && Message(a) == Message(b)
    ensures a == b
  {
    FixedMessageShape(a);
    FixedMessageShape(b);
    EndingIdentifiesSentence(Message(a), a, b);
  }

  /** A status-code message ends in a digit; no other message the client builds does. */
  lemma UnexpectedStatusMessageIsNotFixed(code: PlainInt, b: ClientError)
    requires FixedMessage(b) || b.UndefinedResource?
    ensures Message(UnexpectedStatus(code)) != Message(b)
  {
    if b.UndefinedResource? {
      StatusMessageIsNotUndefinedResource(code, b.name);
    } else {
      StatusMessageIsNotFixedSentence(code, b);
    }
  }

  /** A status-code message is never an undefined-resource message. */
  lemma StatusMessageIsNotUndefinedResource(code: PlainInt, name: string)
    ensures Message(UnexpectedStatus(code)) != Message(UndefinedResource(name))
  {
    StatusMessageEndsInDigit(code);
    UndefinedResourceMessageEndsInDot(name);
    DigitEndingDiffers(Message(UnexpectedStatus(code)), Message(UndefinedResource(name)));
  }

  /** A status-code message is never one of the fixed sentences. */
  lemma StatusMessageIsNotFixedSentence(code: PlainInt, b: ClientError)
    requires FixedMessage(b)
    ensures Message(UnexpectedStatus(code)) != Message(b)
  {
    FixedMessageShape(b);
    StatusMessageDiffersFromEnding(code, Message(b), FixedEnding(b));
  }

  /** A status-code message differs from any string with a fixed sentence's ending. */
  lemma StatusMessageDiffersFromEnding(code: PlainInt, n: string, ending: (char, char))
    requires EndsAs(n, ending)
    ensures Message(UnexpectedStatus(code)) != n
  {
    StatusMessageEndsInDigit(code);
    DigitEndingDiffers(Message(UnexpectedStatus(code)), n);
  }

  /** A status-code message ends in the last digit of the code. */
  lemma StatusMessageEndsInDigit(code: PlainInt)
    ensures var m := Message(UnexpectedStatus(code)); |m| > 0 && IsDigit(m[|m| - 1])
  {
    var m := Message(UnexpectedStatus(code));
    assert IsDigit(m[|m| - 1]);
  }

  /** An undefined-resource message ends in a full stop. */
  lemma UndefinedResourceMessageEndsInDot(name: string)
    ensures var m := Message(UndefinedResource(name)); |m| > 0 && m[|m| - 1] == '.'
  {
  }

  /** A string ending in a digit differs from one that does not. */
  lemma DigitEndingDiffers(m: string, n: string)
    requires |m| > 0 && IsDigit(m[|m| - 1])
    requires |n| > 0 && !IsDigit(n[|n| - 1])
    ensures m != n
  {
  }

  /** An undefined-resource message ends in " called."; no fixed sentence does. */
  lemma UndefinedResourceMessageIsNotFixed(name: string, b: ClientError)
    requires FixedMessage(b)
    ensures Message(UndefinedResource(name)) != Message(b)
  {
    var m := Message(UndefinedResource(name));
    assert m[|m| - 4] == 'l';
    FixedMessageShape(b);
    EndingIdentifiesSentence(Message(b), b, b);
  }

  /** Distinct errors the client builds have distinct messages: a message
      identifies the failure class, and the status code or resource name it carries. */
  lemma MessageIdentifiesError(a: ClientError, b: ClientError)
    requires a.RaisedByClient() && b.RaisedByClient()
    requires Message(a) == Message(b)
    ensures a == b
  {
    if a.UnexpectedStatus? && b.UnexpectedStatus? {
      UnexpectedStatusMessageNamesCode(a.code, b.code);
    } else if a.UndefinedResource? && b.UndefinedResource? {
      UndefinedResourceMessageNamesResource(a.name, b.name);
    } else if a.UnexpectedStatus? {
      UnexpectedStatusMessageIsNotFixed(a.code, b);
    } else if b.UnexpectedStatus? {
      UnexpectedStatusMessageIsNotFixed(b.code, a);
    } else if a.UndefinedResource? {
      UndefinedResourceMessageIsNotFixed(a.name, b);
    } else if b.UndefinedResource? {
      UndefinedResourceMessageIsNotFixed(b.name, a);
    } else {
      FixedMessagesDistinct(a, b);
    }
  }
}

=== FILE: js.dfy ===
/**
  The JavaScript values the client observes: the arguments handed to chained
  calls, the parameter object, the cache validators, parsed JSON bodies and the
  access token. Only the parts of JavaScript semantics that the client's
  branches depend on are modelled: `=== undefined`, truthiness, and the string
  a value becomes when it is concatenated with a string.
 */
module Js {

  datatype Option<+T> = None | Some(value: T)

  /** The safe integers: every one of them is a double, and JavaScript renders
      each in plain decimal with all its digits. Beyond 2^53 - 1 it prints the
      shortest digits that round-trip, padded with zeros. */
  type PlainInt = n: int | -9_007_199_254_740_991 <= n <= 9_007_199_254_740_991

  /** A JavaScript value. Numbers are safe integers (at most 2^53 - 1 in magnitude);
      arrays, symbols, functions, NaN and fractional numbers are not
      represented. An object is its own enumerable properties. */
  datatype JsValue =
    | Undefined
    | Null
    | Bool(b: bool)
    | Number(n: PlainInt)
    | Str(s: string)
    | Object(fields: map<string, JsValue>)

  /** JavaScript truthiness, as used by `if (v)`. */
  predicate Truthy(v: JsValue) {
    match v
    case Undefined => false
    case Null => false
    case Bool(b) => b
    case Number(n) => n != 0
    case Str(s) => s != ""
    case Object(_) => true
  }

  predicate IsDigit(c: char) {
    '0' <= c <= '9'
  }

  function DigitChar(d: nat): (c: char)
    requires d < 10
    ensures IsDigit(c)
  {
    ('0' as int + d) as char
  }

  function DigitValue(c: char): (d: nat)
    requires IsDigit(c)
    ensures d < 10
  {
    c as int - '0' as int
  }

  /** The decimal rendering JavaScript gives a non-negative integer. */
  function NatToString(n: nat): (s: string)
    ensures |s| >= 1
    ensures forall i :: 0 <= i < |s| ==> IsDigit(s[i])
    ensures s[0] == '0' ==> |s| == 1
  {
    if n < 10 then [DigitChar(n)] else NatToString(n / 10) + [DigitChar(n % 10)]
  }

  /** Reading a string of decimal digits back as a number. */
  function DecimalValue(s: string): nat
    requires forall i :: 0 <= i < |s| ==> IsDigit(s[i])
  {
    if s == [] then 0 else DecimalValue(s[..|s| - 1]) * 10 + DigitValue(s[|s| - 1])
  }

  /** Rendering a number in decimal loses nothing: reading it back gives the number. */
  lemma {:induction false} NatToStringRoundTrip(n: nat)
    ensures DecimalValue(NatToString(n)) == n
  {
    if n >= 10 {
      var s := NatToString(n);
      var h := NatToString(n / 10);
      assert s == h + [DigitChar(n % 10)];
      assert s[..|s| - 1] == h;
      NatToStringRoundTrip(n / 10);
    }
  }

  lemma NatToStringInjective(a: nat, b: nat)
    requires NatToString(a) == NatToString(b)
    ensures a == b
  {
    NatToStringRoundTrip(a);
    NatToStringRoundTrip(b);
  }

  /** The string JavaScript makes of a safe integer Number: an optional minus
      sign, then its decimal digits. */
  function NumberToString(i: PlainInt): (s: string)
    ensures |s| >= 1
    ensures i < 0 <==> s[0] == '-'
    ensures IsDigit(s[|s| - 1])
  {
    if i < 0 then "-" + NatToString(-i) else NatToString(i)
  }

  lemma NumberToStringInjective(a: PlainInt, b: PlainInt)
    requires NumberToString(a) == NumberToString(b)
    ensures a == b
  {
    if a < 0 {
      assert NumberToString(a)[1..] == NatToString(-a);
      assert NumberToString(b)[1..] == NatToString(-b);
      NatToStringInjective(-a, -b);
    } else {
      NatToStringInjective(a, b);
    }
  }

  /** The string a value becomes in `"…" + v` (plain objects render as `[object Object]`). */
  function ToJsString(v: JsValue): string {
    match v
    case Undefined => "undefined"
    case Null => "null"
    case Bool(b) => if b then "true" else "false"
    case Number(n) => NumberToString(n)
    case Str(s) => s
    case Object(_) => "[object Object]"
  }
}

=== FILE: request.dfy ===
/**
  Request construction for a submitted plan: the resource registry, the path
  the segments are concatenated into, the query string, and the headers of the
  single GET the client issues. Serialising the parameter object
  (`querystring.stringify`) is a parameter of the model, `stringify`.
 */
module Request {
  import opened Js
  import opened Errors
  import opened Builder

  /** The first segment's name selects one of these URI prefixes. */
  const Resources: map<string, string> := map[
    "Autocomplete" := "/autocomplete",
    "Category" := "/categories",
    "Flag" := "/flags",
    "Manufacturer" := "/manufacturers",
    "Product" := "/products",
    "Search" := "/search",
    "Shop" := "/shops",
    "Sku" := "/skus"
  ]

  const ApiHost := "api.skroutz.gr"
  const AcceptValue := "application/vnd.skroutz+json; version=3.1"

  /** Looking a name up among the registry's own keys. */
  function ResourceUri(name: string): (r: Option<string>)
    ensures r.Some? <==> name in Resources.Keys
    ensures r.Some? ==> |r.value| >= 2 && r.value[0] == '/'
  {
    if name in Resources then Some(Resources[name]) else None
  }

  /** The start of the path, from the resource prefix and the first segment's
      argument: the prefix alone when there is no argument, otherwise the
      prefix extended by the argument between slashes. */
  function Head(uri: string, first: Segment): (r: string)
    ensures uri <= r
    ensures r == uri <==> first.args.Undefined?
    ensures !first.args.Undefined? ==> r[|uri|] == '/' && r[|r| - 1] == '/'
  {
    if first.args.Undefined? then uri else uri + "/" + ToJsString(first.args) + "/"
  }

  /** What a later segment contributes: its name, a slash, and its argument and a slash when it has one. */
  function Component(s: Segment): string {
    s.property + "/" + (if s.args.Undefined? then "" else ToJsString(s.args) + "/")
  }

  /** The components of the later segments, in call order: empty exactly
      when there are none, and otherwise ending in a slash. */
  function Components(segs: seq<Segment>): (r: string)
    ensures r == "" <==> segs == []
    ensures r != "" ==> r[|r| - 1] == '/'
  {
    if segs == [] then "" else Component(segs[0]) + Components(segs[1..])
  }

  /** Adding one more segment at the end adds its component at the end. */
  lemma {:induction false} ComponentsSnoc(segs: seq<Segment>, s: Segment)
    ensures Components(segs + [s]) == Components(segs) + Component(s)
    decreases |segs|
  {
    if segs == [] {
      assert [] + [s] == [s];
      assert Components([s]) == Component(s) + Components([]);
    } else {
      assert (segs + [s])[0] == segs[0];
      assert (segs + [s])[1..] == segs[1..] + [s];
      ComponentsSnoc(segs[1..], s);
    }
  }

  /** Appending the component of `methods[i]` to a path that holds those of
      `methods[1..i]` gives the path holding those of `methods[1..i + 1]`. */
  lemma ComponentsExtend(head: string, methods: seq<Segment>, i: nat)
    requires 1 <= i < |methods|
    ensures head + Components(methods[1..i]) + Component(methods[i]) == head + Components(methods[1..i + 1])
  {
    assert methods[1..i + 1] == methods[1..i] + [methods[i]];
    ComponentsSnoc(methods[1..i], methods[i]);
  }

  /** The path before any query string, written as the client's loop builds it. */
  method BuildPath(uri: string, methods: seq<Segment>) returns (path: string)
    requires |methods| >= 1
    ensures path == Head(uri, methods[0]) + Components(methods[1..])
  {
    path := Head(uri, methods[0]);
    var i := 1;
    while i < |methods|
      invariant 1 <= i <= |methods|
      invariant path == Head(uri, methods[0]) + Components(methods[1..i])
    {
      var piece := methods[i].property + "/";
      if !methods[i].args.Undefined? {
        piece := piece + ToJsString(methods[i].args) + "/";
      }
      assert piece == Component(methods[i]);
      ComponentsExtend(Head(uri, methods[0]), methods, i);
      path := path + piece;
      i := i + 1;
    }
    assert methods[1..i] == methods[1..];
  }

  /** The path of a plan whose first segment names a resource. It starts with
      the prefix, and ends in a slash unless it is the prefix alone, which
      happens exactly when the resource is the only segment and has no argument. */
  function PathOf(uri: string, methods: seq<Segment>): (r: string)
    requires |methods| >= 1
    ensures uri <= r
    ensures r == uri <==> |methods| == 1 && methods[0].args.Undefined?
    ensures r != uri ==> r[|r| - 1] == '/'
  {
    Head(uri, methods[0]) + Components(methods[1..])
  }

  /** `path.slice(0, path.length - 1)`: the path without its last character ("" stays ""). */
  function DropLast(path: string): (r: string)
    ensures |path| >= 1 ==> |r| == |path| - 1 && path == r + [path[|path| - 1]]
    ensures |path| == 0 ==> r == ""
  {
    if |path| == 0 then "" else path[..|path| - 1]
  }

  /** With a truthy parameter value the last character of the path gives way to `?` and the query string. */
  function WithQuery(path: string, params: JsValue, stringify: JsValue -> string): (r: string)
    ensures !Truthy(params) ==> r == path
    ensures Truthy(params) && |path| >= 1 ==>
              |r| == |path| + |stringify(params)| && r[..|path| - 1] == path[..|path| - 1]
              && r[|path| - 1] == '?' && r[|path|..] == stringify(params)
  {
    if Truthy(params) then DropLast(path) + "?" + stringify(params) else path
  }

  /** The request headers; an ETag validator wins over a Last-Modified one. */
  function Headers(token: JsValue, etag: JsValue, lastModified: JsValue): (h: map<string, string>)
    ensures "Accept" in h && h["Accept"] == AcceptValue
    ensures "Authorization" in h && h["Authorization"] == "Bearer " + ToJsString(token)
    ensures "If-None-Match" in h <==> Truthy(etag)
    ensures "If-None-Match" in h ==> h["If-None-Match"] == ToJsString(etag)
    ensures "If-Modified-Since" in h <==> !Truthy(etag) && Truthy(lastModified)
    ensures "If-Modified-Since" in h ==> h["If-Modified-Since"] == ToJsString(lastModified)
    ensures !("If-None-Match" in h && "If-Modified-Since" in h)
    ensures h.Keys <= {"Accept", "Authorization", "If-None-Match", "If-Modified-Since"}
  {
    var base := map["Accept" := AcceptValue, "Authorization" := "Bearer " + ToJsString(token)];
    if Truthy(etag) then base["If-None-Match" := ToJsString(etag)]
    else if Truthy(lastModified) then base["If-Modified-Since" := ToJsString(lastModified)]
    else base
  }

  /** The GET the client issues. */
  datatype Get = Get(hostname: string, path: string, headers: map<string, string>)

  /** The request for a submitted plan, or the reason no request is issued. */
  function BuildRequest(plan: Plan, token: JsValue, stringify: JsValue -> string): (r: Result<Get>)
    ensures plan.methods == [] ==> r == Err(EmptyPlan)
    ensures plan.methods != [] && plan.methods[0].property !in Resources ==>
              r == Err(UndefinedResource(plan.methods[0].property))
    ensures r.Ok? <==> plan.methods != [] && plan.methods[0].property in Resources
    ensures r.Ok? ==> r.value.hostname == ApiHost
                      && r.value.headers == Headers(token, plan.cacheETag, plan.cacheModified)
    ensures r.Ok? ==> var uri := Resources[plan.methods[0].property];
                      r.value.path == WithQuery(PathOf(uri, plan.methods), plan.params, stringify)
  {
    if plan.methods == [] then Err(EmptyPlan)
    else
      match ResourceUri(plan.methods[0].property)
      case None => Err(UndefinedResource(plan.methods[0].property))
      case Some(uri) =>
        Ok(Get(ApiHost, WithQuery(PathOf(uri, plan.methods), plan.params, stringify),
               Headers(token, plan.cacheETag, plan.cacheModified)))
  }

  /** A resource called without an argument, then a sub-resource: the two
      names are joined with no slash between them. */
  lemma BarePrefixJoinsNextName()
    ensures PathOf("/products", [Segment("Product", Undefined), Segment("sku", Number(42))])
            == "/productssku/42/"
  {
  }

  /** As written: `Search()` with parameters requests `/searc?…`, losing the
      last letter of the resource name instead of a trailing slash. */
  lemma BarePrefixLosesLastLetter(stringify: JsValue -> string, q: map<string, JsValue>)
    ensures var plan := Plan([Segment("Search", Undefined)], Object(q), Undefined, Undefined);
            var r := BuildRequest(plan, Str("t"), stringify);
            r.Ok? && r.value.path == "/searc?" + stringify(Object(q))
            && r.value.path[..|"/search"|] != "/search"
  {
  }

  /** The start of the path with the separator the rest of the path expects:
      a bare prefix is followed by a slash like every other piece. */
  function HeadIntended(uri: string, first: Segment): string {
    if first.args.Undefined? then uri + "/" else uri + "/" + ToJsString(first.args) + "/"
  }

  function PathOfIntended(uri: string, methods: seq<Segment>): string
    requires |methods| >= 1
  {
    HeadIntended(uri, methods[0]) + Components(methods[1..])
  }

  /** With the intended separator the path always ends in a slash, so adding a
      query string removes exactly that slash and keeps the resource prefix
      and every segment intact. */
  lemma IntendedQueryRemovesOnlySlash(uri: string, methods: seq<Segment>, params: JsValue,
                                      stringify: JsValue -> string)
    requires |methods| >= 1 && Truthy(params)
    ensures var p := PathOfIntended(uri, methods);
            p[|p| - 1] == '/'
            && WithQuery(p, params, stringify) == p[..|p| - 1] + "?" + stringify(params)
            && WithQuery(p, params, stringify)[..|uri|] == uri
  {
    var p := PathOfIntended(uri, methods);
    var h := HeadIntended(uri, methods[0]);
    assert h[|h| - 1] == '/';
    assert p == h + Components(methods[1..]);
    assert h[..|uri|] == uri;
  }
}

=== FILE: response.dfy ===
/**
  Classification of HTTP replies: the resource GET's status codes and body,
  and the token exchange's credential check, status codes and body. Reading
  the body and `JSON.parse` are outside the model: a reply carries the parse
  outcome of its body, which is looked at only where the client reads it.
 */
module Response {
  import opened Js
  import opened Errors

  /** What `JSON.parse` made of a body. */
  datatype Parsed = SyntaxError | Json(value: JsValue)

  /** A reply as the client sees it: status code, lower-cased header names, parsed body. */
  datatype Reply = Reply(status: PlainInt, headers: map<string, string>, body: Parsed)

  /** The status codes the resource GET names explicitly. */
  const KnownStatuses: set<int> := {200, 304, 400, 401, 403, 404, 500, 501}

  /** The error a non-200, non-304 status code is reported as. */
  function StatusError(code: PlainInt): (e: ClientError)
    requires code != 200 && code != 304
    ensures code == 404 <==> e == NotFound
    ensures code == 400 <==> e == BadRequest
    ensures code == 401 <==> e == InvalidCredentials
    ensures code == 500 <==> e == ServerError
    ensures code == 501 <==> e == NotImplemented
    ensures code == 403 <==> e == Forbidden
    ensures code !in KnownStatuses <==> e == UnexpectedStatus(code)
  {
    if code !in KnownStatuses then UnexpectedStatus(code)
    else if code == 404 then NotFound
    else if code == 400 then BadRequest
    else if code == 401 then InvalidCredentials
    else if code == 500 then ServerError
    else if code == 501 then NotImplemented
    else Forbidden
  }

  /** The `cache` object: the `etag` and `last-modified` headers that are present, and nothing else. */
  function CacheInfo(headers: map<string, string>): (c: map<string, JsValue>)
    ensures c.Keys == headers.Keys * {"etag", "last-modified"}
    ensures forall k :: k in c ==> c[k] == Str(headers[k])
  {
    map k | k in headers.Keys * {"etag", "last-modified"} :: Str(headers[k])
  }

  /** What the 304 reply resolves to. */
  const CachedResponse := Object(map["cached" := Bool(true)])

  /** The result of a resource GET. */
  function ResourceResult(reply: Reply): (r: Result<JsValue>)
    ensures reply.status == 304 ==> r == Ok(CachedResponse)
    ensures reply.status != 200 && reply.status != 304 ==> r == Err(StatusError(reply.status))
    ensures r.Ok? ==> reply.status in {200, 304}
    ensures reply.status == 200 ==>
              match reply.body
              case SyntaxError => r == Err(JsonSyntaxError)
              case Json(Object(f)) =>
                r.Ok? && r.value.Object? && r.value.fields.Keys == f.Keys + {"cache"}
                && r.value.fields["cache"] == Object(CacheInfo(reply.headers))
                && forall k :: k in f && k != "cache" ==> r.value.fields[k] == f[k]
              case Json(_) => r == Err(AssignToPrimitive)
  {
    if reply.status != 200 && reply.status != 304 then Err(StatusError(reply.status))
    else if reply.status == 304 then Ok(CachedResponse)
    else
      match reply.body
      case SyntaxError => Err(JsonSyntaxError)
      case Json(Object(f)) => Ok(Object(f["cache" := Object(CacheInfo(reply.headers))]))
      // in strict mode, creating a property on null or a primitive throws a TypeError
      case Json(_) => Err(AssignToPrimitive)
  }

  /** Only a 200 reply has its body or headers read: any two replies with the
      same other status code give the same result. */
  lemma OnlyOkReadsBody(a: Reply, b: Reply)
    requires a.status == b.status && a.status != 200
    ensures ResourceResult(a) == ResourceResult(b)
  {
  }

  /** The cache object of a reply carrying an ETag holds exactly that ETag. */
  lemma ETagSurfacesInCache(headers: map<string, string>, body: map<string, JsValue>, etag: string)
    requires "etag" in headers && headers["etag"] == etag
    ensures var r := ResourceResult(Reply(200, headers, Json(Object(body))));
            r.Ok? && r.value.fields["cache"].fields["etag"] == Str(etag)
  {
  }

  /** The credentials the token exchange sends, as given by the caller. */
  datatype Credentials = Credentials(clientId: JsValue, clientSecret: JsValue)

  /** An object whose own `hasOwnProperty` shadows the inherited method. A
      modelled value is never a function, so calling that property throws. */
  predicate ShadowsHasOwnProperty(v: JsValue) {
    v.Object? && "hasOwnProperty" in v.fields
  }

  /** The check on the authentication object: it must be defined and have both keys as own properties. */
  function CheckCredentials(auth: JsValue): (r: Result<Credentials>)
    ensures auth.Undefined? ==> r == Err(WrongAuthObject)
    ensures auth.Null? ==> r == Err(ReadOfNull)
    ensures ShadowsHasOwnProperty(auth) ==> r == Err(CallOfNonFunction)
    ensures r.Ok? <==> auth.Object? && !ShadowsHasOwnProperty(auth)
                       && "client_id" in auth.fields && "client_secret" in auth.fields
    ensures r.Ok? ==> r.value == Credentials(auth.fields["client_id"], auth.fields["client_secret"])
    ensures r.Err? && !auth.Null? && !ShadowsHasOwnProperty(auth) ==> r.error == WrongAuthObject
  {
    match auth
    case Undefined => Err(WrongAuthObject)
    // `null.hasOwnProperty` throws before the check can fail
    case Null => Err(ReadOfNull)
    case Object(f) =>
      if "hasOwnProperty" in f then Err(CallOfNonFunction)
      else if "client_id" in f && "client_secret" in f then Ok(Credentials(f["client_id"], f["client_secret"]))
      else Err(WrongAuthObject)
    // a boolean, number or string has neither key as an own property
    case _ => Err(WrongAuthObject)
  }

  /** A reply to the token request: its status code and parsed body. */
  datatype TokenReply = TokenReply(status: PlainInt, body: Parsed)

  /** The token a reply to the token request yields. */
  function TokenResult(reply: TokenReply): (r: Result<JsValue>)
    ensures reply.status == 401 ==> r == Err(InvalidCredentials)
    ensures reply.status != 200 && reply.status != 401 ==> r == Err(UnexpectedStatus(reply.status))
    ensures r.Ok? <==> reply.status == 200 && reply.body.Json? && reply.body.value.Object?
                       && !ShadowsHasOwnProperty(reply.body.value) && "access_token" in reply.body.value.fields
    ensures r.Ok? ==> r.value == reply.body.value.fields["access_token"]
    ensures reply.status == 200 && reply.body.SyntaxError? ==> r == Err(JsonSyntaxError)
    ensures reply.status == 200 && reply.body == Json(Null) ==> r == Err(ReadOfNull)
    ensures reply.status == 200 && reply.body.Json? && ShadowsHasOwnProperty(reply.body.value) ==>
              r == Err(CallOfNonFunction)
    ensures (reply.status == 200 && reply.body.Json? && !reply.body.value.Null?
             && !ShadowsHasOwnProperty(reply.body.value) && r.Err?) ==> r.error == UnexpectedData
  {
    if reply.status != 200 && reply.status != 401 then Err(UnexpectedStatus(reply.status))
    else if reply.status == 401 then Err(InvalidCredentials)
    else
      match reply.body
      case SyntaxError => Err(JsonSyntaxError)
      case Json(Null) => Err(ReadOfNull)
      case Json(Object(f)) =>
        if "hasOwnProperty" in f then Err(CallOfNonFunction)
        else if "access_token" in f then Ok(f["access_token"])
        else Err(UnexpectedData)
      case Json(_) => Err(UnexpectedData)
  }

  /** Only a 200 reply to the token request has its body read: any two replies
      with the same other status code yield the same result. */
  lemma OnlyOkReadsTokenBody(a: TokenReply, b: TokenReply)
    requires a.status == b.status && a.status != 200
    ensures TokenResult(a) == TokenResult(b)
  {
  }

  /** The token endpoint's answer is passed on unchanged: a 200 reply whose
      object names `access_token` yields exactly that value, whatever other keys
      it carries besides `hasOwnProperty`, and the same body under a 401 yields
      none. */
  lemma IssuedTokenIsReturned(fields: map<string, JsValue>, token: JsValue)
    requires "hasOwnProperty" !in fields
    ensures TokenResult(TokenReply(200, Json(Object(fields["access_token" := token])))) == Ok(token)
    ensures TokenResult(TokenReply(401, Json(Object(fields["access_token" := token])))) == Err(InvalidCredentials)
  {
  }

  /** The token exchange: the credential check, then the request, answered by `server`. */
  function Authorize(auth: JsValue, server: Credentials -> TokenReply): (r: Result<JsValue>)
    ensures CheckCredentials(auth).Err? ==> r == Err(CheckCredentials(auth).error)
    ensures CheckCredentials(auth).Ok? ==> r == TokenResult(server(CheckCredentials(auth).value))
  {
    match CheckCredentials(auth)
    case Err(e) => Err(e)
    case Ok(c) => TokenResult(server(c))
  }

  /** Credentials that fail the check (either key missing, or a shadowed
      `hasOwnProperty`) fail without a request: the outcome is the same
      whatever the token endpoint would answer. */
  lemma MissingKeyMakesNoRequest(auth: JsValue, s1: Credentials -> TokenReply, s2: Credentials -> TokenReply)
    requires !(auth.Object? && !ShadowsHasOwnProperty(auth) && "client_id" in auth.fields && "client_secret" in auth.fields)
    ensures Authorize(auth, s1) == Authorize(auth, s2)
    ensures Authorize(auth, s1).Err?
  {
  }
}
